=== FILE: README.md ===
# Schedule core of a baseball schedule viewer

A Dafny model of the pure rules inside the schedule viewer's React
components: the working collection of `Game` records and its two mutations
(attach a memo, delete a game), the case-insensitive search and month filter
of the list, the day lookups, badges and click priority of the calendar, the
memo dialog's form rules (including `Number.parseInt(x) || 1`), and the
date/time texts and conditional lines of the list cards and the detail dialog.

Everything is a pure function over immutable values:

- `Types` — `Game`, `Memo`, and the parsed-date values (`DateParts`,
  `DateTime`). An Invalid Date is `None`. JavaScript truthiness of optional
  fields is `FlagSet`/`TextSet`.
- `Seqs` — `Filter`, `Map` and `Any` (the array `filter`/`map`/`some`), with
  subsequence, idempotence and first-match facts.
- `Text` — ASCII `toLowerCase`, `includes`, `toString` of integers and
  `padStart`.
- `NumberParse` — `Number.parseInt` without a radix, following section 19.2.5
  of ECMA-262. This covers white space, the sign, the `0x` prefix and the
  longest digit prefix. NaN is `None`.
- `DateText` — weekday names and colours, the month/day text and the shared
  `formatTime`.
- `ScheduleList`, `ScheduleCalendar`, `MemoDialog`, `GameDetailDialog` — one
  module per component.

Date parsing and the clock are parameters. A `DateParser` (string to
`Option<DateTime>`) stands for `new Date(...)` and its local-time getters. An
integer `now` (milliseconds) stands for `new Date()`. The calendar cell's
day key (`toISOString().split("T")[0]`), weekday and day of month are taken
as given.

In these places the model follows the code, which is easy to misread:

- A ticket count typed as a negative number is kept negative. The code's
  `parseInt(x) || 1` only replaces NaN and zero.
- The calendar matches a record when the text of its date before the first
  `T` equals the cell's key. The key comes from `toISOString()`, which is
  UTC. It is not a comparison of local calendar days.
- A pre-booking date or notes text that is the empty string counts as
  absent, because the components test these fields for truthiness.
- An Invalid Date gives the month text `"NaN"`. Under `"all"` such a record
  is shown. Under every numeric month option it is hidden.

## Model

| member | source | states |
|---|---|---|
| ScheduleList.SaveMemo | components/schedule-list.tsx:44-50 | Length is kept. Every record with another id is unchanged. Every record with the id gets memo `{attendees, ticketCount}`, and no other field of it changes. |
| ScheduleList.SaveMemoUnknownId | components/schedule-list.tsx:44-47 | Saving under an id that no record has leaves the collection equal. |
| ScheduleList.SaveMemoLastWins | components/schedule-list.tsx:44-47 | Two saves to one id equal the second save alone, so repeating a save is idempotent. |
| ScheduleList.SaveMemoKeepsUniqueIds | components/schedule-list.tsx:44-47 | A save never changes ids, so unique ids stay unique. |
| ScheduleList.DeleteGame | components/schedule-list.tsx:53-56 | No record with the id remains. The result is an order-preserving subsequence and never longer. Every record with another id is kept as many times as it occurs. |
| ScheduleList.DeleteGameCount | components/schedule-list.tsx:53-56 | With unique ids the collection shrinks by exactly one when the id is present and not at all otherwise. |
| ScheduleList.DeleteUnknownId | components/schedule-list.tsx:53-56 | Deleting an absent id leaves the collection equal. |
| ScheduleList.FilterGames | components/schedule-list.tsx:59-68 | The result is an order-preserving subsequence of the collection. A record passing both the search and the month selector occurs in it as often as in the collection. Any other record does not occur. |
| ScheduleList.MatchesSearch | components/schedule-list.tsx:60-62 | The empty term matches every record. A match needs the term to be no longer than the opponent or the location. |
| ScheduleList.MonthText | components/schedule-list.tsx:64 | "NaN" exactly for an Invalid Date. Otherwise decimal digits that read back as the 1-based month. |
| ScheduleList.MatchesMonth | components/schedule-list.tsx:64-65 | "all" passes every record. An Invalid Date passes only "all" or "NaN". Otherwise a passing option is a numeral that reads as the record's 1-based month. |
| ScheduleList.MatchesSearchIff | components/schedule-list.tsx:60-62 | The search holds iff the lower-cased term occurs in the lower-cased opponent or in the lower-cased location. |
| ScheduleList.SearchIgnoresCase | components/schedule-list.tsx:60-62 | A term and its lower-cased form select the same records. |
| ScheduleList.MonthFilterSelects | components/schedule-list.tsx:64-65 | Month option "m" (1-12) matches iff the date is valid and its `getMonth()+1` is m. An Invalid Date never matches. |
| ScheduleList.FilterGamesUnfiltered | components/schedule-list.tsx:59-68 | Term "" with "all" returns the collection unchanged, Invalid Dates included. |
| ScheduleList.FilterGamesIdempotent | components/schedule-list.tsx:59-68 | Filtering the filtered list again with the same term and month changes nothing. |
| ScheduleList.SearchNarrows | components/schedule-list.tsx:59-68 | Under "all", any term gives a subsequence of the unfiltered list. |
| ScheduleList.SearchFindsOpponentInMonth | components/schedule-list.tsx:59-68 | "opponent a" with month "4" finds a record against "Opponent A" dated in April. |
| ScheduleList.IsPastGame | components/schedule-list.tsx:129-137 | True iff the date is valid and its instant is strictly before `now`. An Invalid Date is never past. |
| ScheduleList.PastStaysPast | components/schedule-list.tsx:129-137 | A game past at some time stays past at every later time. |
| ScheduleList.FormatDate | components/schedule-list.tsx:92-112 | The placeholder "날짜 정보 없음" for an Invalid Date. Otherwise "M월 D일 (weekday)", coloured red on Sunday, blue on Saturday and plain otherwise. |
| ScheduleList.MemoText | components/schedule-list.tsx:226 | The memo badge text, also used after "관람자: " in the detail dialog's memo line. It starts with the attendees and " (" and ends with "매)". In between is the ticket count with its sign: '-' then digits reading back as the absolute value when negative, otherwise digits reading back as the count. |
| ScheduleList.CardOf | components/schedule-list.tsx:184-228 | The delete button shows iff the game is past, so only for valid dates. The memo button is marked iff a memo exists. The pre-booking badge shows iff the pre-booking date is a non-empty string, captioned "선예매: ". The memo badge shows iff a memo exists. |
| ScheduleList.LoadGames | components/schedule-list.tsx:26-35 | A missing or empty stored payload keeps the seed. So does one that fails to decode. Otherwise the decoded collection is used. |
| ScheduleList.SaveGames | components/schedule-list.tsx:38-41 | The updated collection becomes the working collection and is written whole to storage. |
| ScheduleList.OnSaveMemo | components/schedule-list.tsx:44-50 | The working collection becomes the `saveMemo` result. Storage holds that result and the memo dialog closes. |
| ScheduleList.OnDeleteClick | components/schedule-list.tsx:84-89 | Without confirmation nothing changes. With confirmation the working collection and storage both become the `deleteGame` result. |
| ScheduleList.ReloadAfterSave | components/schedule-list.tsx:26-41 | With a codec that round-trips, loading the stored payload restores the stored collection. |
| DateText.WeekdayColor | components/schedule-list.tsx:101 | Red iff Sunday (0). Blue iff Saturday (6). |
| DateText.FormatTime | components/schedule-list.tsx:115-126 | The placeholder "시간 정보 없음" for an Invalid Date, otherwise the hours/minutes time text. |
| DateText.PaddedMinutes | components/schedule-list.tsx:121 | The minutes are padded to exactly two digits, and those digits read back as the minutes. |
| DateText.MonthDayText | components/schedule-list.tsx:105 | The text starts with a digit and ends with ")". |
| DateText.MonthDayTextReadsBack | components/schedule-list.tsx:99-106 | The leading digit run reads as the 1-based month and is followed by "월 ". The next digit run reads as the day of the month and is followed by "일 (". What remains is the `getDay()` name from the seven-entry table, then ")". |
| DateText.PlaceholderIsNotADate | components/schedule-list.tsx:95-106 | The date placeholder differs from every month/day text. |
| DateText.TimeText | components/schedule-list.tsx:121 | The text has four or five characters, and the colon is always third from the end. |
| DateText.TimeTextReadsBack | components/schedule-list.tsx:121 | The digits before the colon are the unpadded hours, with no leading zero. The two digits after the colon are the minutes. |
| DateText.PlaceholderIsNotATime | components/schedule-list.tsx:117-121 | The time placeholder differs from every real time text. |
| Text.IncludesIff | components/schedule-list.tsx:61-62 | `includes` holds iff the term occurs at some index. |
| Text.IntToString | components/schedule-list.tsx:226 | At least one character. It starts with '-' iff the number is negative. The digits after the '-' read back as the absolute value, and a non-negative number reads back whole. |
| Text.NatToStringRoundTrip | components/schedule-list.tsx:64 | The decimal text of a number reads back as that number. |
| ScheduleCalendar.DayKey | components/schedule-calendar.tsx:19 | The key is the longest prefix of the date that contains no 'T'. It is followed by a 'T' unless it is the whole string. |
| ScheduleCalendar.DayKeyOfDateTime | components/schedule-calendar.tsx:19 | The key of "{day}T{time}" is the day part. |
| ScheduleCalendar.GamesOnDate | components/schedule-calendar.tsx:30-34 | In schedule order, the records whose date key equals the day's key, each as often as it occurs in the schedule, and no others. Empty for an absent day. |
| ScheduleCalendar.PreBookingGamesOnDate | components/schedule-calendar.tsx:37-41 | In schedule order, the records with a non-empty pre-booking date whose key equals the day's, each as often as it occurs in the schedule, and no others. A record without one never appears. |
| ScheduleCalendar.HasGameOnDate | components/schedule-calendar.tsx:16-20 | True iff the day is present and some record's date text before the first 'T' equals the day's key. |
| ScheduleCalendar.HasPreBookingOnDate | components/schedule-calendar.tsx:23-27 | True iff the day is present and some record has a non-empty pre-booking date whose text before the first 'T' equals the day's key. |
| ScheduleCalendar.HasGameIffGamesOnDate | components/schedule-calendar.tsx:16-20 | `hasGameOnDate` holds iff `getGamesOnDate` is non-empty. It is false for an absent day. |
| ScheduleCalendar.HasPreBookingIffPreBookingGamesOnDate | components/schedule-calendar.tsx:23-27 | `hasPreBookingOnDate` holds iff `getPreBookingGamesOnDate` is non-empty. It is false for an absent day. |
| ScheduleCalendar.RenderDay | components/schedule-calendar.tsx:44-62 | Nothing for an absent day. Otherwise: weekend iff weekday 0 or 6; red iff 0 and blue iff 6; the game badge iff the day has games; the pre-booking badge iff it has pre-bookings. |
| ScheduleCalendar.BothBadgesOnOneDay | components/schedule-calendar.tsx:47-58 | One day can show both badges: one record is played on it and another's pre-booking opens on it. |
| ScheduleCalendar.HandleDateClick | components/schedule-calendar.tsx:65-78 | A day with a game selects a game of that day and opens the dialog. A day with only pre-bookings selects one of them. Otherwise, and for an absent day, the state is unchanged. |
| ScheduleCalendar.ClickSelectsFirstGame | components/schedule-calendar.tsx:68-73 | The selected game is the earliest-listed record on that day. |
| ScheduleCalendar.ClickFallsBackToFirstPreBooking | components/schedule-calendar.tsx:74-77 | With no game on the day, the earliest-listed pre-booking on it is selected. |
| MemoDialog.InitialForm | components/memo-dialog.tsx:22-30 | When the reset effect runs (the dialog receives a different record object), the fields take the memo's attendees and ticketCount, or "" and 1 when there is no memo. |
| MemoDialog.CoerceTicketCount | components/memo-dialog.tsx:83 | NaN and 0 become 1. Any other parsed integer, negative ones included, is kept unchanged. The result is never 0. |
| MemoDialog.OnTicketInput | components/memo-dialog.tsx:83 | The ticket field becomes the coerced input, and the attendees stay. |
| MemoDialog.OnAttendeesInput | components/memo-dialog.tsx:72 | The attendees field becomes the input, and the ticket count stays. |
| MemoDialog.HandleSave | components/memo-dialog.tsx:32-34 | `onSave` receives the game's id and the current fields unmodified. |
| MemoDialog.UneditedSaveIsNoOp | components/memo-dialog.tsx:22-34 | After an opening on which the reset effect runs, saving a game with a memo without edits leaves a collection with unique ids equal. |
| MemoDialog.ZeroTicketsSavesOne | components/memo-dialog.tsx:83 | Typing "0" and saving stores a memo with ticket count 1. |
| MemoDialog.TicketCountOfNumeral | components/memo-dialog.tsx:83 | A typed positive numeral keeps its value. |
| MemoDialog.TicketCountKeepsNegatives | components/memo-dialog.tsx:83 | A typed negative numeral stays negative, because nothing clamps it. |
| MemoDialog.TicketCountDefaults | components/memo-dialog.tsx:83 | Empty text, and text without letters or digits, gives 1. |
| MemoDialog.FormatDate | components/memo-dialog.tsx:37-52 | The placeholder for an Invalid Date. Otherwise the same "M월 D일 (weekday)" text as the list. |
| NumberParse.ParseInt | components/memo-dialog.tsx:83 | A number comes out only when the text starts, after white space and an optional sign, with a decimal digit. A negative result needs a leading '-'. |
| NumberParse.ParseIntOfNatToString | components/memo-dialog.tsx:83 | `parseInt(String(n))` is n for every n >= 0. |
| NumberParse.ParseIntOfNegative | components/memo-dialog.tsx:83 | `parseInt("-" + String(n))` is -n. |
| NumberParse.ParseIntNumeralPrefix | components/memo-dialog.tsx:83 | A numeral followed by a non-digit parses to the numeral's value. The one exception is "0" followed by x/X, which is the hex prefix. |
| NumberParse.ParseIntSkipsWhiteSpace | components/memo-dialog.tsx:83 | Leading white space does not change the result. |
| NumberParse.ParseIntNoDigits | components/memo-dialog.tsx:83 | Text without letters or digits is NaN. |
| GameDetailDialog.Description | components/game-detail-dialog.tsx:67 | "선예매 정보" iff `isPreBooking` is true, else "경기 정보". |
| GameDetailDialog.FormatDate | components/game-detail-dialog.tsx:24-45 | The placeholder for an Invalid Date. Otherwise the year, then "년 ", then the list's month/day/weekday text, in the list's weekday colour. |
| GameDetailDialog.View | components/game-detail-dialog.tsx:67-119 | The pre-booking line shows iff the pre-booking date is non-empty, captioned "선예매일: ". The memo line shows iff a memo exists: "관람자: " then its attendees and count. The special badge shows iff `isSpecialGame` is true. The notes block shows iff notes is a non-empty string. Time text as in the list. |

## Left out

- Date parsing, time zones and the clock: `new Date(s)`, its local-time getters, `toISOString()` and `new Date()` are parameters (`DateParser`, `now`, `CalendarDay`). The model does not check that the UTC day key and the local weekday of one calendar cell agree.
- Text.ToLower: lower-cases the ASCII letters A-Z only. JavaScript's `toLowerCase` folds every cased Unicode letter (Latin, Greek, Cyrillic, Armenian, fullwidth, circled and more). The model leaves letters outside ASCII unchanged. It does not model folds that change a string's length, such as 'İ' to "i̇", which change what `includes` finds. Korean text has no case.
- MemoDialog.InitialForm: the fields are set only when the dialog receives a different record object (`useEffect(..., [game])`, memo-dialog.tsx:22-30). The dialog stays mounted while a record is selected (schedule-list.tsx:243-250), cancel and close only clear the open flag, and `handleMemoClick` stores the same object again (schedule-list.tsx:77-81). So an edit that was cancelled is still in the fields when the same record is reopened, and an unedited save then writes it. `InitialForm` and `UneditedSaveIsNoOp` describe an opening on which the effect runs; the retained form state across openings is not modelled.
- MemoDialog.CoerceTicketCount: `parseInt` returns a double. The model's unbounded integer does not lose precision past 2^53, does not reach Infinity, and merges -0 into 0 (both become 1 here anyway).
- NumberParse.ParseIntNumeralPrefix: covers decimal numerals only; hexadecimal inputs are modelled by `ParseInt` but no lemma states their values.
- localStorage and JSON: the stored payload is an optional string, and decoding is an abstract `decode` function.
- ScheduleList.LoadGames: a payload that does not decode to a game collection leaves the seed in place. The source differs (schedule-list.tsx:26-35). `JSON.parse` succeeds on text such as `"null"`, `"{}"` or `"[1]"`, and the component stores that value. The next render then throws at `games.filter` or `game.opponent.toLowerCase()` (lines 59-61). A `getItem` that throws (line 27, outside the `try`) is not modelled either. The model has no crash state; it falls back to the seed.
- ScheduleList.OnSaveMemo: treats storage as infallible and always closes the dialog. In the source, a `setItem` that throws (line 40, no `try`) escapes `saveMemo` before `setIsMemoDialogOpen(false)` at line 49 runs, so the dialog stays open.
- The `catch` branches returning "날짜 정보 오류" / "시간 정보 오류" and the `catch` in `isPastGame`: `new Date` on a string never throws, so these branches cannot run and are not modelled.
- The `confirm()` prompt is a boolean parameter of `OnDeleteClick`.
- `handleGameClick` and `handleMemoClick` only store the clicked record and open a dialog; they are not modelled. JSX layout, icons, badge styling and the memo dialog's heading line are not modelled either.
- The seed schedule (lib/data) is not part of this model. The calendar reads it as its `schedule` parameter.
- firebase/services.ts and firebase/config.ts (a remote document store client) and app/page.tsx (static page shell) are outside the core.

=== FILE: date_text.dfy ===
/** The date-derived display rules shared by the list, the calendar and the
    two dialogs: weekday names and colours, the month/day text and the
    `H:MM` time text. */
module DateText {
  import opened Wrappers
  import opened Types
  import opened Text
  import NumberParse

  /** The colour class a weekday is drawn in. */
  datatype DayColor = Red | Blue | Plain

  /** Sunday red, Saturday blue, every other day uncoloured. */
  function WeekdayColor(w: Weekday): (c: DayColor)
    ensures c == Red <==> w == 0
    ensures c == Blue <==> w == 6
  {
    if w == 0 then Red else if w == 6 then Blue else Plain
  }

  /** A rendered date: its text, and the colour of its `(weekday)` part. */
  datatype DateLabel = DateLabel(text: string, color: DayColor)

  /** A date preceded by the fixed caption it is shown with ("선예매: "). */
  datatype CaptionedDate = CaptionedDate(caption: string, date: DateLabel)

  /** `getDay()`-indexed one-syllable weekday names, Sunday first. */
  const DayNames: seq<string> := ["일", "월", "화", "수", "목", "금", "토"]

  function DayName(w: Weekday): string {
    DayNames[w]
  }

  /** Placeholder shown instead of a date that did not parse. */
  const NoDateText: string := "날짜 정보 없음"
  /** Placeholder shown instead of a time whose date did not parse. */
  const NoTimeText: string := "시간 정보 없음"

  /** `"{month+1}월 {day}일 ({weekday})"`: it opens with the month's digits
      and closes on the parenthesised weekday name. */
  function MonthDayText(p: DateParts): (r: string)
    ensures |r| > 0 && IsDigit(r[0]) && r[|r| - 1] == ')'
  {
    NatToString(p.month + 1) + "월 " + NatToString(p.day) + "일 (" + DayName(p.weekday) + ")"
  }

  /** `"{hours}:{minutes padded to two digits}"`: four or five characters,
      the colon always third from the end. */
  function TimeText(h: Hour, m: Minute): (r: string)
    ensures 4 <= |r| <= 5 && r[|r| - 3] == ':'
  {
    PaddedMinutes(m);
    HourDigits(h);
    NatToString(h) + ":" + PadStart(NatToString(m), 2, '0')
  }

  /** Hours take one or two digits. */
  lemma HourDigits(h: Hour)
    ensures |NatToString(h)| <= 2
  {
    if h >= 10 {
      assert |NatToString(h / 10)| == 1;
    }
  }

  /** The `formatTime` of the list and of the detail dialog. */
  function FormatTime(d: Option<DateTime>): (r: string)
    ensures d.None? ==> r == NoTimeText
    ensures d.Some? ==> r == TimeText(d.value.local.hour, d.value.local.minute)
  {
    match d
    case None => NoTimeText
    case Some(dt) => TimeText(dt.local.hour, dt.local.minute)
  }

  /** Minutes always take exactly two digits, and they read back. */
  lemma {:induction false} PaddedMinutes(m: Minute)
    ensures var p := PadStart(NatToString(m), 2, '0');
      |p| == 2 && AllDigits(p) && DigitsValue(p) == m
  {
    var ms := NatToString(m);
    NatToStringRoundTrip(m);
    if m < 10 {
      assert PadStart(ms, 2, '0') == "0" + ms;
      LeadingZeroValue(ms);
    } else {
      assert |NatToString(m / 10)| == 1;
    }
  }

  /** The time text reads back: the digits before the colon are the hours,
      without a leading zero, and the two digits after it are the minutes. */
  lemma TimeTextReadsBack(h: Hour, m: Minute)
    ensures var t := TimeText(h, m);
      && |t| >= 4
      && t[|t| - 3] == ':'
      && AllDigits(t[..|t| - 3]) && DigitsValue(t[..|t| - 3]) == h
      && (|t| > 4 ==> t[0] != '0')
      && AllDigits(t[|t| - 2..]) && DigitsValue(t[|t| - 2..]) == m
  {
    NatToStringRoundTrip(h);
    PaddedMinutes(m);
    ReadTime(NatToString(h), PadStart(NatToString(m), 2, '0'), TimeText(h, m));
  }

  /** Where the hours and minutes of `"{hs}:{ps}"` sit when `ps` has two
      characters. */
  lemma ReadTime(hs: string, ps: string, t: string)
    requires |ps| == 2 && t == hs + ":" + ps
    ensures |t| == |hs| + 3 && t[|t| - 3] == ':' && t[..|t| - 3] == hs && t[|t| - 2..] == ps
    ensures |hs| > 0 ==> t[0] == hs[0]
  {
  }

  /** A date that failed to parse never shows a time: every real time text
      is at most five characters long, the placeholder is eight. */
  lemma PlaceholderIsNotATime(h: Hour, m: Minute)
    ensures FormatTime(None) != TimeText(h, m)
  {
    assert |NoTimeText| == 8;
  }

  /** The month/day text reads back: its leading run of digits is the 1-based
      month, followed by "월 "; the next run of digits is the day of the
      month, followed by "일 ("; what remains is the weekday's name and ")". */
  lemma MonthDayTextReadsBack(p: DateParts)
    ensures var t := MonthDayText(p);
      var i := NumberParse.DigitPrefixLength(t, 10);
      && 1 <= i && i + 2 <= |t|
      && AllDigits(t[..i]) && DigitsValue(t[..i]) == p.month + 1
      && t[i..i + 2] == "월 "
      && var u := t[i + 2..];
      var j := NumberParse.DigitPrefixLength(u, 10);
      && 1 <= j && j + 3 <= |u|
      && AllDigits(u[..j]) && DigitsValue(u[..j]) == p.day
      && u[j..j + 3] == "일 ("
      && u[j + 3..] == DayNames[p.weekday] + ")"
  {
    var ms := NatToString(p.month + 1);
    var ds := NatToString(p.day);
    NatToStringRoundTrip(p.month + 1);
    NatToStringRoundTrip(p.day);
    ReadMonthDay(ms, ds, DayNames[p.weekday], MonthDayText(p));
  }

  /** The read-back of `"{ms}월 {ds}일 ({name})"` for any two digit runs. */
  lemma ReadMonthDay(ms: string, ds: string, name: string, t: string)
    requires |ms| > 0 && AllDigits(ms) && |ds| > 0 && AllDigits(ds)
    requires t == ms + "월 " + ds + "일 (" + name + ")"
    ensures var i := NumberParse.DigitPrefixLength(t, 10);
      && i + 2 <= |t| && t[..i] == ms && t[i..i + 2] == "월 "
      && var u := t[i + 2..];
      var j := NumberParse.DigitPrefixLength(u, 10);
      && j + 3 <= |u| && u[..j] == ds && u[j..j + 3] == "일 (" && u[j + 3..] == name + ")"
  {
    var tail := name + ")";
    var u := ds + ("일 (" + tail);
    assert t == ms + ("월 " + u);
    ReadDigits(ms, "월 ", u, t);
    ReadDigits(ds, "일 (", tail, u);
  }

  /** One field of a rendered date reads back: in `s + sep + rest`, with `s`
      a non-empty run of digits and a separator that does not start with a
      digit, the leading run of digits is `s`, then comes `sep`, then `rest`
      untouched. */
  lemma ReadDigits(s: string, sep: string, rest: string, t: string)
    requires |s| > 0 && AllDigits(s) && |sep| > 0 && !IsDigit(sep[0]) && t == s + (sep + rest)
    ensures var i := NumberParse.DigitPrefixLength(t, 10);
      && i == |s| && i + |sep| <= |t| && t[..i] == s
      && t[i..i + |sep|] == sep && t[i + |sep|..] == rest
  {
    NumberParse.DigitPrefixAllDigits(s, sep + rest);
    assert t[..|s|] == s;
  }

  /** A date that failed to parse never shows a month/day: every real
      month/day text starts with a digit, the placeholder with '날'. */
  lemma PlaceholderIsNotADate(p: DateParts)
    ensures NoDateText != MonthDayText(p)
  {
    assert !IsDigit(NoDateText[0]);
  }
}

=== FILE: game_detail_dialog.dfy ===
/** The game detail dialog (components/game-detail-dialog.tsx): which lines
    and badges appear for a record and how its dates are written. */
module GameDetailDialog {
  import opened Wrappers
  import opened Types
  import opened Text
  import opened DateText
  import ScheduleList

  /** The dialog's subtitle. */
  function Description(g: Game): (r: string)
    ensures r == "선예매 정보" <==> FlagSet(g.isPreBooking)
    ensures r == "경기 정보" <==> !FlagSet(g.isPreBooking)
  {
    if FlagSet(g.isPreBooking) then "선예매 정보" else "경기 정보"
  }

  /** The dialog's `formatDate`: the list's text preceded by the year, in the
      same weekday colour; the placeholder for an Invalid Date. */
  function FormatDate(d: Option<DateTime>): (r: DateLabel)
    ensures d.None? ==> r == DateLabel(NoDateText, Plain)
    ensures d.Some? ==> r.text == IntToString(d.value.local.year) + "년 " + ScheduleList.FormatDate(d).text
    ensures r.color == ScheduleList.FormatDate(d).color
  {
    match d
    case None => DateLabel(NoDateText, Plain)
    case Some(dt) =>
      DateLabel(IntToString(dt.local.year) + "년 " + MonthDayText(dt.local), WeekdayColor(dt.local.weekday))
  }

  /** What the dialog shows for one record. */
  datatype DetailView = DetailView(
    description: string,
    date: DateLabel,
    time: string,
    location: string,
    preBookingLine: Option<CaptionedDate>,
    memoLine: Option<string>,
    specialBadge: bool,
    notes: Option<string>)

  function View(g: Game, parse: DateParser): (v: DetailView)
    ensures v.description == Description(g)
    ensures v.date == FormatDate(parse(g.date)) && v.time == FormatTime(parse(g.date))
    ensures v.location == g.location
    ensures v.preBookingLine.Some? <==> TextSet(g.preBookingDate)
    ensures v.preBookingLine.Some? ==>
      v.preBookingLine.value == CaptionedDate("선예매일: ", FormatDate(parse(g.preBookingDate.value)))
    ensures v.memoLine.Some? <==> g.memo.Some?
    ensures v.memoLine.Some? ==> v.memoLine.value == "관람자: " + ScheduleList.MemoText(g.memo.value)
    ensures v.specialBadge <==> FlagSet(g.isSpecialGame)
    ensures v.notes.Some? <==> TextSet(g.notes)
    ensures v.notes.Some? ==> v.notes == g.notes
  {
    DetailView(
      Description(g),
      FormatDate(parse(g.date)),
      FormatTime(parse(g.date)),
      g.location,
      if TextSet(g.preBookingDate) then Some(CaptionedDate("선예매일: ", FormatDate(parse(g.preBookingDate.value)))) else None,
      if g.memo.Some? then Some("관람자: " + ScheduleList.MemoText(g.memo.value)) else None,
      FlagSet(g.isSpecialGame),
      if TextSet(g.notes) then g.notes else None)
  }
}

=== FILE: memo_dialog.dfy ===
/** The memo dialog (components/memo-dialog.tsx): the form's initial values,
    the ticket-count coercion of its input handler, the arguments of its
    save button and its date heading. */
module MemoDialog {
  import opened Wrappers
  import opened Types
  import opened Text
  import opened DateText
  import opened NumberParse
  import ScheduleList

  /** The two form fields. */
  datatype MemoForm = MemoForm(attendees: string, ticketCount: int)

  /** The fields the reset effect sets when the dialog receives a new record:
      the game's memo when it has one, else `""` and `1`. */
  function InitialForm(g: Game): (f: MemoForm)
    ensures g.memo.Some? ==> f.attendees == g.memo.value.attendees && f.ticketCount == g.memo.value.ticketCount
    ensures g.memo.None? ==> f.attendees == "" && f.ticketCount == 1
  {
    match g.memo
    case Some(m) => MemoForm(m.attendees, m.ticketCount)
    case None => MemoForm("", 1)
  }

  /** `Number.parseInt(text) || 1`: NaN and zero become 1; every other parsed
      integer, negative ones included, is kept as it is. */
  function CoerceTicketCount(text: string): (r: int)
    ensures r != 0
    ensures r == 1 <==> ParseInt(text) in {None, Some(0), Some(1)}
    ensures ParseInt(text).Some? && ParseInt(text).value != 0 ==> r == ParseInt(text).value
  {
    match ParseInt(text)
    case None => 1
    case Some(v) => if v == 0 then 1 else v
  }

  function OnAttendeesInput(f: MemoForm, text: string): (r: MemoForm)
    ensures r.attendees == text && r.ticketCount == f.ticketCount
  {
    f.(attendees := text)
  }

  /** The ticket-count input handler: the coerced value replaces the field. */
  function OnTicketInput(f: MemoForm, text: string): (r: MemoForm)
    ensures r.attendees == f.attendees && r.ticketCount == CoerceTicketCount(text)
  {
    f.(ticketCount := CoerceTicketCount(text))
  }

  /** The arguments `handleSave` passes to `onSave`. */
  datatype SaveRequest = SaveRequest(gameId: string, attendees: string, ticketCount: int)

  function HandleSave(g: Game, f: MemoForm): (r: SaveRequest)
    ensures r.gameId == g.id && r.attendees == f.attendees && r.ticketCount == f.ticketCount
  {
    SaveRequest(g.id, f.attendees, f.ticketCount)
  }

  /** The list's `saveMemo` applied to a save request. */
  function ApplySave(games: seq<Game>, req: SaveRequest): seq<Game> {
    ScheduleList.SaveMemo(games, req.gameId, req.attendees, req.ticketCount)
  }

  /** Typing a positive numeral keeps its value. */
  lemma TicketCountOfNumeral(n: nat)
    requires n > 0
    ensures CoerceTicketCount(NatToString(n)) == n
  {
    ParseIntOfNatToString(n);
  }

  /** Typing a negative numeral keeps it too: the handler does not clamp. */
  lemma TicketCountKeepsNegatives(n: nat)
    requires n > 0
    ensures CoerceTicketCount("-" + NatToString(n)) == -(n as int)
  {
    ParseIntOfNegative(n);
  }

  /** An empty field and text without digits give the default 1. */
  lemma TicketCountDefaults(text: string)
    requires forall i :: 0 <= i < |text| ==> DigitIn(text[i]).None?
    ensures CoerceTicketCount(text) == 1
  {
    ParseIntNoDigits(text);
  }

  /** Saving, without edits, the fields the reset effect set for a game that
      has a memo leaves the collection equal. */
  lemma UneditedSaveIsNoOp(games: seq<Game>, g: Game)
    requires g in games && UniqueIds(games) && g.memo.Some?
    ensures ApplySave(games, HandleSave(g, InitialForm(g))) == games
  {
    var req := HandleSave(g, InitialForm(g));
    var r := ApplySave(games, req);
    var k :| 0 <= k < |games| && games[k] == g;
    forall i | 0 <= i < |games|
      ensures r[i] == games[i]
    {
      if games[i].id == g.id {
        assert i == k;
        assert r[i] == games[i].(memo := Some(Memo(g.memo.value.attendees, g.memo.value.ticketCount)));
      }
    }
  }

  /** Typing "0" as the ticket count and saving stores a memo with one
      ticket on the record. */
  lemma ZeroTicketsSavesOne(games: seq<Game>, g: Game, i: nat)
    requires i < |games| && games[i].id == g.id
    ensures ApplySave(games, HandleSave(g, OnTicketInput(InitialForm(g), "0")))[i].memo.value.ticketCount == 1
  {
    ParseIntOfNatToString(0);
  }

  /** The dialog's heading date: the same month, day and weekday text as
      the list, or the placeholder. */
  function FormatDate(d: Option<DateTime>): (r: string)
    ensures d.None? ==> r == NoDateText
    ensures r == ScheduleList.FormatDate(d).text
  {
    match d
    case None => NoDateText
    case Some(dt) => MonthDayText(dt.local)
  }
}

=== FILE: number_parse.dfy ===
/** `Number.parseInt(string)` with no radix argument, following section 19.2.5
    of ECMA-262 (parseInt): leading white space is skipped, an optional sign
    is read, a `0x`/`0X` prefix switches to radix 16, and the longest prefix of
    digits in the radix is converted. `None` stands for NaN. */
module NumberParse {
  import opened Wrappers
  import opened Text

  /** WhiteSpace and LineTerminator code points (StrWhiteSpaceChar). */
  predicate IsStrWhiteSpace(c: char) {
    || c == '\t' || c == '\n' || c == '\U{000B}' || c == '\U{000C}' || c == '\r'
    || c == ' ' || c == '\U{00A0}' || c == '\U{1680}'
    || ('\U{2000}' <= c <= '\U{200A}')
    || c == '\U{2028}' || c == '\U{2029}' || c == '\U{202F}' || c == '\U{205F}'
    || c == '\U{3000}' || c == '\U{FEFF}'
  }

  /** Drops the leading white space. */
  function TrimStart(s: string): (r: string)
    ensures |r| <= |s| && r == s[|s| - |r|..]
    ensures forall i :: 0 <= i < |s| - |r| ==> IsStrWhiteSpace(s[i])
    ensures |r| == 0 || !IsStrWhiteSpace(r[0])
  {
    if |s| > 0 && IsStrWhiteSpace(s[0]) then TrimStart(s[1..]) else s
  }

  /** The value of `c` as a digit in any radix up to 36, if it is one. */
  function DigitIn(c: char): Option<nat> {
    if '0' <= c <= '9' then Some(c as int - '0' as int)
    else if 'a' <= c <= 'z' then Some(c as int - 'a' as int + 10)
    else if 'A' <= c <= 'Z' then Some(c as int - 'A' as int + 10)
    else None
  }

  predicate IsRadixDigit(c: char, radix: nat) {
    DigitIn(c).Some? && DigitIn(c).value < radix
  }

  /** The length of the longest prefix of `s` made of digits in `radix`. */
  function DigitPrefixLength(s: string, radix: nat): (n: nat)
    ensures n <= |s|
    ensures forall i :: 0 <= i < n ==> IsRadixDigit(s[i], radix)
    ensures n < |s| ==> !IsRadixDigit(s[n], radix)
  {
    if |s| > 0 && IsRadixDigit(s[0], radix) then 1 + DigitPrefixLength(s[1..], radix) else 0
  }

  /** The number a string of radix digits denotes, most significant first
      (applied only to a digit prefix, so the default 0 is never used). */
  function RadixValue(s: string, radix: nat): nat {
    if |s| == 0 then 0
    else RadixValue(s[..|s| - 1], radix) * radix + DigitIn(s[|s| - 1]).GetOr(0)
  }

  /** The sign read after the white space is negative exactly for a leading '-'. */
  predicate Negative(s: string) {
    |s| > 0 && s[0] == '-'
  }

  function DropSign(s: string): string {
    if |s| > 0 && (s[0] == '-' || s[0] == '+') then s[1..] else s
  }

  predicate HasHexPrefix(s: string) {
    |s| >= 2 && s[0] == '0' && (s[1] == 'x' || s[1] == 'X')
  }

  /** The magnitude: radix 16 after a `0x` prefix, else radix 10; NaN when no
      digit follows. */
  function ParseMagnitude(s: string): (r: Option<nat>)
    ensures r.Some? ==> |s| > 0 && IsDigit(s[0])
  {
    var radix := if HasHexPrefix(s) then 16 else 10;
    var body := if HasHexPrefix(s) then s[2..] else s;
    var n := DigitPrefixLength(body, radix);
    if n == 0 then None
    else
      assert radix == 10 ==> IsRadixDigit(s[0], 10);
      Some(RadixValue(body[..n], radix))
  }

  /** `Number.parseInt(input)`. A number is read only when, after the white
      space and an optional sign, the text starts with a decimal digit (a
      hexadecimal numeral starts with its `0`); only a leading '-' can make
      it negative. */
  function ParseInt(input: string): (r: Option<int>)
    ensures r.Some? ==> var u := DropSign(TrimStart(input)); |u| > 0 && IsDigit(u[0])
    ensures r.Some? && r.value < 0 ==> Negative(TrimStart(input))
  {
    ParseSigned(TrimStart(input))
  }

  /** The optional sign and the magnitude, once the white space is gone. */
  function ParseSigned(s: string): (r: Option<int>)
    ensures r.Some? ==> |DropSign(s)| > 0 && IsDigit(DropSign(s)[0])
    ensures r.Some? && r.value < 0 ==> Negative(s)
  {
    var magnitude := ParseMagnitude(DropSign(s));
    if magnitude.None? then None
    else if Negative(s) then Some(-(magnitude.value as int))
    else Some(magnitude.value as int)
  }

  /** On decimal digits the radix-10 value is the decimal value. */
  lemma {:induction false} RadixValueDecimal(s: string)
    requires AllDigits(s)
    ensures RadixValue(s, 10) == DigitsValue(s)
  {
    if |s| > 0 {
      RadixValueDecimal(s[..|s| - 1]);
    }
  }

  lemma {:induction false} DigitPrefixAllDigits(t: string, rest: string)
    requires AllDigits(t)
    requires |rest| == 0 || !IsDigit(rest[0])
    ensures DigitPrefixLength(t + rest, 10) == |t|
  {
    if |t| > 0 {
      assert (t + rest)[1..] == t[1..] + rest;
      DigitPrefixAllDigits(t[1..], rest);
    } else {
      assert t + rest == rest;
    }
  }

  /** A decimal numeral, followed by anything that does not continue it,
      has the numeral's value as its magnitude. */
  lemma MagnitudeOfNumeral(n: nat, rest: string)
    requires |rest| == 0 || !IsDigit(rest[0])
    requires n == 0 ==> |rest| == 0 || (rest[0] != 'x' && rest[0] != 'X')
    ensures ParseMagnitude(NatToString(n) + rest) == Some(n)
  {
    var t := NatToString(n);
    var s := t + rest;
    assert !HasHexPrefix(s) by {
      if |t| == 1 {
        assert s[1..] == rest;
      } else {
        assert s[0] == t[0];
      }
    }
    DigitPrefixAllDigits(t, rest);
    assert s[..|t|] == t;
    RadixValueDecimal(t);
    NatToStringRoundTrip(n);
  }

  /** A decimal numeral followed by anything that does not continue it parses
      to its value: `parseInt("12매") == 12`, but `parseInt("0x1") == 1`. */
  lemma ParseIntNumeralPrefix(n: nat, rest: string)
    requires |rest| == 0 || !IsDigit(rest[0])
    requires n == 0 ==> |rest| == 0 || (rest[0] != 'x' && rest[0] != 'X')
    ensures ParseInt(NatToString(n) + rest) == Some(n)
  {
    var t := NatToString(n);
    var s := t + rest;
    assert s[0] == t[0];
    MagnitudeOfNumeral(n, rest);
    UnsignedMagnitude(s, n);
  }

  /** `parseInt(String(n)) == n` for every non-negative integer `n`. */
  lemma ParseIntOfNatToString(n: nat)
    ensures ParseInt(NatToString(n)) == Some(n)
  {
    ParseIntNumeralPrefix(n, "");
    assert NatToString(n) + "" == NatToString(n);
  }

  /** `parseInt("-" + String(n)) == -n`: a minus sign is kept. */
  lemma ParseIntOfNegative(n: nat)
    ensures ParseInt("-" + NatToString(n)) == Some(-(n as int))
  {
    var t := NatToString(n);
    MagnitudeOfNumeral(n, "");
    assert t + "" == t;
    NegatedMagnitude(t, n);
  }

  /** Text that starts with a digit is read as its magnitude, unsigned. */
  lemma UnsignedMagnitude(s: string, v: nat)
    requires |s| > 0 && IsDigit(s[0]) && ParseMagnitude(s) == Some(v)
    ensures ParseInt(s) == Some(v as int)
  {
    NoWhiteSpaceToTrim(s);
    assert DropSign(s) == s && !Negative(s);
  }

  /** Text that does not start with white space is parsed as it stands. */
  lemma NoWhiteSpaceToTrim(s: string)
    requires |s| > 0 && !IsStrWhiteSpace(s[0])
    ensures ParseInt(s) == ParseSigned(s)
  {
    assert TrimStart(s) == s;
  }

  /** A leading minus sign negates the magnitude that follows it. */
  lemma NegatedMagnitude(t: string, v: nat)
    requires ParseMagnitude(t) == Some(v)
    ensures ParseInt("-" + t) == Some(-(v as int))
  {
    var s := "-" + t;
    assert s[0] == '-';
    assert TrimStart(s) == s;
    assert s[1..] == t;
    assert ParseSigned(s) == Some(-(v as int));
  }

  /** Leading white space never changes the result. */
  lemma ParseIntSkipsWhiteSpace(c: char, s: string)
    requires IsStrWhiteSpace(c)
    ensures ParseInt([c] + s) == ParseInt(s)
  {
    assert ([c] + s)[1..] == s;
  }

  /** Text without a single letter or digit is NaN. */
  lemma ParseIntNoDigits(s: string)
    requires forall i :: 0 <= i < |s| ==> DigitIn(s[i]).None?
    ensures ParseInt(s) == None
  {
    var t := TrimStart(s);
    var u := DropSign(t);
    assert |u| == 0 || DigitIn(u[0]).None? by {
      if |u| > 0 {
        var k := if u == t then |s| - |t| else |s| - |t| + 1;
        assert u[0] == s[k];
      }
    }
    assert !HasHexPrefix(u);
    assert DigitPrefixLength(u, 10) == 0;
    assert ParseMagnitude(u) == None;
  }
}

=== FILE: schedule_calendar.dfy ===
/** The month calendar (components/schedule-calendar.tsx): day lookups by
    the date prefix of each record, the day-cell badges and colours, and the
    click handler that opens the detail dialog. The calendar reads the
    static schedule, passed in here as `schedule`. */
module ScheduleCalendar {
  import opened Wrappers
  import opened Types
  import opened DateText
  import opened Seqs

  /** `date.split("T")[0]`: the text before the first 'T', or all of it. */
  function DayKey(date: string): (r: string)
    ensures |r| <= |date| && r == date[..|r|]
    ensures 'T' !in r
    ensures |r| < |date| ==> date[|r|] == 'T'
  {
    if |date| == 0 || date[0] == 'T' then "" else [date[0]] + DayKey(date[1..])
  }

  /** The key of an ISO date-time `"{day}T{time}"` is its day part. */
  lemma DayKeyOfDateTime(day: string, time: string)
    requires 'T' !in day
    ensures DayKey(day + "T" + time) == day
  {
    var s := day + "T" + time;
    var k := DayKey(s);
    assert s[|day|] == 'T';
    assert s[..|day|] == day;
  }

  /** A calendar cell's date: `toISOString().split("T")[0]`, `getDay()` and
      `getDate()` of the cell's `Date`, all taken as given. */
  datatype CalendarDay = CalendarDay(key: string, weekday: Weekday, dayOfMonth: DayOfMonth)

  predicate GameOn(g: Game, key: string) {
    DayKey(g.date) == key
  }

  /** A record without a (non-empty) pre-booking date is never on any day. */
  predicate PreBookingOn(g: Game, key: string) {
    TextSet(g.preBookingDate) && DayKey(g.preBookingDate.value) == key
  }

  /** `hasGameOnDate`: some record's date prefix is the day's key; an
      absent day has none. */
  function HasGameOnDate(schedule: seq<Game>, day: Option<CalendarDay>): (r: bool)
    ensures r <==> day.Some? && exists i :: 0 <= i < |schedule| && DayKey(schedule[i].date) == day.value.key
  {
    day.Some? && Any(schedule, (g: Game) => GameOn(g, day.value.key))
  }

  /** `hasPreBookingOnDate`: some record has a non-empty pre-booking date
      whose prefix is the day's key; an absent day has none. */
  function HasPreBookingOnDate(schedule: seq<Game>, day: Option<CalendarDay>): (r: bool)
    ensures r <==> day.Some? && exists i :: 0 <= i < |schedule| && PreBookingOn(schedule[i], day.value.key)
  {
    day.Some? && Any(schedule, (g: Game) => PreBookingOn(g, day.value.key))
  }

  /** `getGamesOnDate`: in schedule order, exactly the records whose date
      prefix is the day's key, each as often as it occurs. */
  function GamesOnDate(schedule: seq<Game>, day: Option<CalendarDay>): (r: seq<Game>)
    ensures day.None? ==> r == []
    ensures IsSubsequence(r, schedule)
    ensures day.Some? ==> forall i :: 0 <= i < |r| ==> GameOn(r[i], day.value.key)
    ensures day.Some? ==> forall i :: 0 <= i < |schedule| && GameOn(schedule[i], day.value.key) ==> schedule[i] in r
    ensures day.Some? ==> forall x: Game :: multiset(r)[x] == if GameOn(x, day.value.key) then multiset(schedule)[x] else 0
  {
    match day
    case None => []
    case Some(d) =>
      FilterIsSubsequence(schedule, (g: Game) => GameOn(g, d.key));
      Filter(schedule, (g: Game) => GameOn(g, d.key))
  }

  /** `getPreBookingGamesOnDate`: in schedule order, exactly the records with
      a pre-booking date whose prefix is the day's key, each as often as it
      occurs. */
  function PreBookingGamesOnDate(schedule: seq<Game>, day: Option<CalendarDay>): (r: seq<Game>)
    ensures day.None? ==> r == []
    ensures IsSubsequence(r, schedule)
    ensures forall i :: 0 <= i < |r| ==> TextSet(r[i].preBookingDate)
    ensures day.Some? ==> forall i :: 0 <= i < |r| ==> PreBookingOn(r[i], day.value.key)
    ensures day.Some? ==> forall i :: 0 <= i < |schedule| && PreBookingOn(schedule[i], day.value.key) ==> schedule[i] in r
    ensures day.Some? ==> forall x: Game :: multiset(r)[x] == if PreBookingOn(x, day.value.key) then multiset(schedule)[x] else 0
  {
    match day
    case None => []
    case Some(d) =>
      FilterIsSubsequence(schedule, (g: Game) => PreBookingOn(g, d.key));
      Filter(schedule, (g: Game) => PreBookingOn(g, d.key))
  }

  lemma HasGameIffGamesOnDate(schedule: seq<Game>, day: Option<CalendarDay>)
    ensures HasGameOnDate(schedule, day) <==> |GamesOnDate(schedule, day)| > 0
  {
    if day.Some? {
      AnyIffFilterNonEmpty(schedule, (g: Game) => GameOn(g, day.value.key));
    }
  }

  lemma HasPreBookingIffPreBookingGamesOnDate(schedule: seq<Game>, day: Option<CalendarDay>)
    ensures HasPreBookingOnDate(schedule, day) <==> |PreBookingGamesOnDate(schedule, day)| > 0
  {
    if day.Some? {
      AnyIffFilterNonEmpty(schedule, (g: Game) => PreBookingOn(g, day.value.key));
    }
  }

  /** What a calendar cell shows. */
  datatype DayCell = DayCell(
    dayOfMonth: DayOfMonth,
    color: DayColor,
    isWeekend: bool,
    gameBadge: bool,
    preBookingBadge: bool)

  /** `renderDay`: nothing for an absent day; otherwise the day number in the
      weekday colour and the two independent badges. */
  function RenderDay(schedule: seq<Game>, day: Option<CalendarDay>): (r: Option<DayCell>)
    ensures r.None? <==> day.None?
    ensures r.Some? ==> r.value.dayOfMonth == day.value.dayOfMonth
    ensures r.Some? ==> (r.value.isWeekend <==> day.value.weekday == 0 || day.value.weekday == 6)
    ensures r.Some? ==> (r.value.color == Red <==> day.value.weekday == 0)
    ensures r.Some? ==> (r.value.color == Blue <==> day.value.weekday == 6)
    ensures r.Some? ==> (r.value.gameBadge <==> |GamesOnDate(schedule, day)| > 0)
    ensures r.Some? ==> (r.value.preBookingBadge <==> |PreBookingGamesOnDate(schedule, day)| > 0)
  {
    match day
    case None => None
    case Some(d) =>
      HasGameIffGamesOnDate(schedule, day);
      HasPreBookingIffPreBookingGamesOnDate(schedule, day);
      Some(DayCell(
        d.dayOfMonth,
        WeekdayColor(d.weekday),
        d.weekday == 0 || d.weekday == 6,
        HasGameOnDate(schedule, day),
        HasPreBookingOnDate(schedule, day)))
  }

  /** A day can carry both badges: one record plays on it while another's
      pre-booking opens on it. */
  lemma BothBadgesOnOneDay()
    ensures var cell := RenderDay(SampleSchedule, Some(SampleDay));
      cell.Some? && cell.value.gameBadge && cell.value.preBookingBadge && cell.value.color == Blue
  {
    var key := SampleDay.key;
    SampleDatesSplit();
    DayKeyOfDateTime(key, "17:00:00");
    DayKeyOfDateTime(key, "14:00:00");
    assert GameOn(SampleSchedule[0], key);
    assert PreBookingOn(SampleSchedule[1], key);
    assert SampleSchedule[0] in GamesOnDate(SampleSchedule, Some(SampleDay));
    assert SampleSchedule[1] in PreBookingGamesOnDate(SampleSchedule, Some(SampleDay));
  }

  /** The samples' game date and pre-booking date are the sample day, a 'T'
      and a time. */
  lemma SampleDatesSplit()
    ensures SampleSchedule[0].date == SampleDay.key + "T" + "17:00:00"
    ensures SampleSchedule[1].preBookingDate == Some(SampleDay.key + "T" + "14:00:00")
  {
    var game, preBooking := SampleDay.key + "T" + "17:00:00", SampleDay.key + "T" + "14:00:00";
    assert forall i | 0 <= i < 19 :: SampleSchedule[0].date[i] == game[i];
    assert forall i | 0 <= i < 19 :: SampleSchedule[1].preBookingDate.value[i] == preBooking[i];
    assert SampleSchedule[1].preBookingDate.value == preBooking;
  }

  const SampleDay := CalendarDay("2025-04-19", 6, 19)
  const SampleSchedule := [
    Game("g1", "2025-04-19T17:00:00", "A", "X", true, None, None, None, None, None),
    Game("g2", "2025-04-26T17:00:00", "B", "Y", true, None, Some("2025-04-19T14:00:00"), None, None, None)]

  /** The selection and whether the detail dialog is open. */
  datatype CalendarState = CalendarState(selected: Option<Game>, dialogOpen: bool)

  /** `handleDateClick`: the first game on the day, else the first
      pre-booking on the day, is selected and the dialog opened; otherwise,
      and for an absent day, nothing changes. */
  function HandleDateClick(schedule: seq<Game>, st: CalendarState, day: Option<CalendarDay>): (r: CalendarState)
    ensures !HasGameOnDate(schedule, day) && !HasPreBookingOnDate(schedule, day) ==> r == st
    ensures day.None? ==> r == st
    ensures HasGameOnDate(schedule, day) ==>
      r.dialogOpen && r.selected.Some? && r.selected.value in schedule && GameOn(r.selected.value, day.value.key)
    ensures !HasGameOnDate(schedule, day) && HasPreBookingOnDate(schedule, day) ==>
      r.dialogOpen && r.selected.Some? && r.selected.value in schedule && PreBookingOn(r.selected.value, day.value.key)
  {
    HasGameIffGamesOnDate(schedule, day);
    HasPreBookingIffPreBookingGamesOnDate(schedule, day);
    var games := GamesOnDate(schedule, day);
    var preBookings := PreBookingGamesOnDate(schedule, day);
    if day.None? then st
    else if |games| > 0 then CalendarState(Some(games[0]), true)
    else if |preBookings| > 0 then CalendarState(Some(preBookings[0]), true)
    else st
  }

  /** A click on a day with games selects the earliest-listed of them. */
  lemma ClickSelectsFirstGame(schedule: seq<Game>, st: CalendarState, day: Option<CalendarDay>) returns (i: nat)
    requires HasGameOnDate(schedule, day)
    ensures IsFirstMatch(schedule, (g: Game) => GameOn(g, day.value.key), i)
    ensures HandleDateClick(schedule, st, day) == CalendarState(Some(schedule[i]), true)
  {
    HasGameIffGamesOnDate(schedule, day);
    i := FilterHeadIsFirstMatch(schedule, (g: Game) => GameOn(g, day.value.key));
  }

  /** A click on a day with no game but with pre-bookings selects the
      earliest-listed pre-booking. */
  lemma ClickFallsBackToFirstPreBooking(schedule: seq<Game>, st: CalendarState, day: Option<CalendarDay>) returns (i: nat)
    requires !HasGameOnDate(schedule, day) && HasPreBookingOnDate(schedule, day)
    ensures IsFirstMatch(schedule, (g: Game) => PreBookingOn(g, day.value.key), i)
    ensures HandleDateClick(schedule, st, day) == CalendarState(Some(schedule[i]), true)
  {
    HasGameIffGamesOnDate(schedule, day);
    HasPreBookingIffPreBookingGamesOnDate(schedule, day);
    i := FilterHeadIsFirstMatch(schedule, (g: Game) => PreBookingOn(g, day.value.key));
  }
}

=== FILE: schedule_list.dfy ===
/** The schedule list (components/schedule-list.tsx): the working collection,
    its two mutations, the search/month filter and the per-card display
    rules. */
module ScheduleList {
  import opened Wrappers
  import opened Types
  import opened Text
  import opened DateText
  import opened Seqs

  /* ---------------- the working collection ---------------- */

  /** One record after `saveMemo`: a matching id gets the new memo. */
  function WithMemo(g: Game, gameId: string, attendees: string, ticketCount: int): Game {
    if g.id == gameId then g.(memo := Some(Memo(attendees, ticketCount))) else g
  }

  /** `saveMemo`: every record whose id is `gameId` has its memo replaced by
      `{attendees, ticketCount}`; every other record, and every other field,
      stays as it was. */
  function SaveMemo(games: seq<Game>, gameId: string, attendees: string, ticketCount: int): (r: seq<Game>)
    ensures |r| == |games|
    ensures forall i :: 0 <= i < |games| && games[i].id != gameId ==> r[i] == games[i]
    ensures forall i :: 0 <= i < |games| && games[i].id == gameId ==>
      r[i].memo == Some(Memo(attendees, ticketCount))
    ensures forall i :: 0 <= i < |games| ==> r[i].(memo := games[i].memo) == games[i]
  {
    Map(games, g => WithMemo(g, gameId, attendees, ticketCount))
  }

  /** An id that is not in the collection leaves it equal. */
  lemma SaveMemoUnknownId(games: seq<Game>, gameId: string, attendees: string, ticketCount: int)
    requires !HasId(games, gameId)
    ensures SaveMemo(games, gameId, attendees, ticketCount) == games
  {
    var r := SaveMemo(games, gameId, attendees, ticketCount);
    assert forall i :: 0 <= i < |games| ==> games[i].id != gameId;
  }

  /** The last save wins; in particular saving the same memo twice is the
      same as saving it once. */
  lemma SaveMemoLastWins(games: seq<Game>, gameId: string, a1: string, t1: int, a2: string, t2: int)
    ensures SaveMemo(SaveMemo(games, gameId, a1, t1), gameId, a2, t2) == SaveMemo(games, gameId, a2, t2)
  {
    var once := SaveMemo(games, gameId, a1, t1);
    var twice := SaveMemo(once, gameId, a2, t2);
    var direct := SaveMemo(games, gameId, a2, t2);
    forall i | 0 <= i < |games|
      ensures twice[i] == direct[i]
    {
      assert once[i].id == games[i].id;
      if games[i].id == gameId {
        assert twice[i] == once[i].(memo := Some(Memo(a2, t2)));
        assert once[i].(memo := games[i].memo) == games[i];
      }
    }
  }

  /** Saving a memo never changes the ids, so uniqueness of ids is kept. */
  lemma SaveMemoKeepsUniqueIds(games: seq<Game>, gameId: string, attendees: string, ticketCount: int)
    requires UniqueIds(games)
    ensures UniqueIds(SaveMemo(games, gameId, attendees, ticketCount))
  {
    var r := SaveMemo(games, gameId, attendees, ticketCount);
    assert forall i :: 0 <= i < |r| ==> r[i].id == games[i].id by {
      forall i | 0 <= i < |r|
        ensures r[i].id == games[i].id
      {
        assert r[i].(memo := games[i].memo) == games[i];
      }
    }
  }

  /** `deleteGame`: the records whose id is not `gameId`, in their order,
      each as often as it occurs. */
  function DeleteGame(games: seq<Game>, gameId: string): (r: seq<Game>)
    ensures !HasId(r, gameId)
    ensures |r| <= |games|
    ensures IsSubsequence(r, games)
    ensures forall i :: 0 <= i < |games| && games[i].id != gameId ==> games[i] in r
    ensures forall i :: 0 <= i < |r| ==> r[i] in games
    ensures forall x: Game :: multiset(r)[x] == if x.id != gameId then multiset(games)[x] else 0
  {
    FilterIsSubsequence(games, (g: Game) => g.id != gameId);
    Filter(games, (g: Game) => g.id != gameId)
  }

  /** With unique ids the collection shrinks by exactly one when the id is
      present and not at all when it is absent. */
  lemma {:induction false} DeleteGameCount(games: seq<Game>, gameId: string)
    requires UniqueIds(games)
    ensures |DeleteGame(games, gameId)| == if HasId(games, gameId) then |games| - 1 else |games|
  {
    if |games| > 0 {
      var rest := games[1..];
      assert UniqueIds(rest);
      DeleteGameCount(rest, gameId);
      HasIdCons(games, gameId);
      DeleteGameCons(games, gameId);
      if games[0].id == gameId {
        assert !HasId(rest, gameId);
      }
    }
  }

  /** A non-empty collection has the id at its head or in its tail. */
  lemma HasIdCons(games: seq<Game>, id: string)
    requires |games| > 0
    ensures HasId(games, id) <==> games[0].id == id || HasId(games[1..], id)
  {
    if HasId(games, id) {
      var i :| 0 <= i < |games| && games[i].id == id;
      if i > 0 {
        assert games[1..][i - 1].id == id;
      }
    }
    if HasId(games[1..], id) {
      var i :| 0 <= i < |games[1..]| && games[1..][i].id == id;
      assert games[i + 1].id == id;
    }
  }

  /** Deleting from a non-empty collection keeps its head iff the head has
      another id, and deletes from the tail. */
  lemma DeleteGameCons(games: seq<Game>, gameId: string)
    requires |games| > 0
    ensures |DeleteGame(games, gameId)| == |DeleteGame(games[1..], gameId)| + if games[0].id != gameId then 1 else 0
  {
  }

  /** Deleting an id that is not in the collection leaves it equal. */
  lemma DeleteUnknownId(games: seq<Game>, gameId: string)
    requires !HasId(games, gameId)
    ensures DeleteGame(games, gameId) == games
  {
    FilterAll(games, (g: Game) => g.id != gameId);
  }

  /* ---------------- the filtered view ---------------- */

  /** Case-insensitive search on opponent or location: the empty term
      matches every record, and a term longer than both fields matches none. */
  function MatchesSearch(g: Game, term: string): (r: bool)
    ensures term == "" ==> r
    ensures r ==> |term| <= |g.opponent| || |term| <= |g.location|
  {
    IncludesEmpty(ToLower(g.opponent));
    || Includes(ToLower(g.opponent), ToLower(term))
    || Includes(ToLower(g.location), ToLower(term))
  }

  /** `(getMonth() + 1).toString()`: the digits of the 1-based month, or
      "NaN" for an Invalid Date. */
  function MonthText(d: Option<DateTime>): (r: string)
    ensures d.None? <==> r == "NaN"
    ensures d.Some? ==> AllDigits(r) && DigitsValue(r) == d.value.local.month + 1
  {
    match d
    case None => "NaN"
    case Some(dt) =>
      var s := NatToString(dt.local.month + 1);
      NatToStringRoundTrip(dt.local.month + 1);
      assert IsDigit(s[0]);
      s
  }

  /** The month selector: "all" keeps every record; an Invalid Date passes
      only "all" (and the never-offered "NaN"); a valid date passes only a
      numeral that reads as its 1-based month. */
  function MatchesMonth(d: Option<DateTime>, monthFilter: string): (r: bool)
    ensures monthFilter == "all" ==> r
    ensures d.None? ==> (r <==> monthFilter == "all" || monthFilter == "NaN")
    ensures d.Some? && monthFilter != "all" ==>
      (r ==> AllDigits(monthFilter) && DigitsValue(monthFilter) == d.value.local.month + 1)
  {
    monthFilter == "all" || MonthText(d) == monthFilter
  }

  /** Whether a record passes both the search and the month selector. */
  predicate Shown(g: Game, term: string, monthFilter: string, parse: DateParser) {
    MatchesSearch(g, term) && MatchesMonth(parse(g.date), monthFilter)
  }

  /** `filteredGames`: an order-preserving subsequence of the collection
      holding exactly the records that pass both predicates, each as often
      as it occurs. */
  function FilterGames(games: seq<Game>, term: string, monthFilter: string, parse: DateParser): (r: seq<Game>)
    ensures IsSubsequence(r, games)
    ensures forall i :: 0 <= i < |r| ==> r[i] in games && Shown(r[i], term, monthFilter, parse)
    ensures forall i :: 0 <= i < |games| && Shown(games[i], term, monthFilter, parse) ==> games[i] in r
    ensures forall x: Game :: multiset(r)[x] == if Shown(x, term, monthFilter, parse) then multiset(games)[x] else 0
  {
    FilterIsSubsequence(games, (g: Game) => Shown(g, term, monthFilter, parse));
    Filter(games, (g: Game) => Shown(g, term, monthFilter, parse))
  }

  /** The search predicate spelt out: the lower-cased term occurs in the
      lower-cased opponent or in the lower-cased location. */
  lemma MatchesSearchIff(g: Game, term: string)
    ensures MatchesSearch(g, term) <==>
      (exists i :: OccursAt(ToLower(g.opponent), ToLower(term), i))
      || (exists i :: OccursAt(ToLower(g.location), ToLower(term), i))
  {
    IncludesIff(ToLower(g.opponent), ToLower(term));
    IncludesIff(ToLower(g.location), ToLower(term));
  }

  /** Upper- and lower-case spellings of a term find the same records. */
  lemma SearchIgnoresCase(g: Game, term: string)
    ensures MatchesSearch(g, term) <==> MatchesSearch(g, ToLower(term))
  {
    ToLowerIdempotent(term);
  }

  /** A month option `"1"`..`"12"` keeps exactly the valid dates of that
      month; an Invalid Date never matches one. */
  lemma MonthFilterSelects(d: Option<DateTime>, m: nat)
    requires 1 <= m <= 12
    ensures MatchesMonth(d, NatToString(m)) <==> d.Some? && d.value.local.month + 1 == m
  {
    var s := NatToString(m);
    assert s != "all" && s != "NaN" by {
      assert IsDigit(s[0]);
    }
    if d.Some? {
      NatToStringInjective(d.value.local.month + 1, m);
    }
  }

  /** The empty term with "all" shows the whole collection, in order, so no
      record (not even one with an Invalid Date) is hidden. */
  lemma FilterGamesUnfiltered(games: seq<Game>, parse: DateParser)
    ensures FilterGames(games, "", "all", parse) == games
  {
    forall g: Game
      ensures MatchesSearch(g, "")
    {
      IncludesEmpty(ToLower(g.opponent));
    }
    FilterAll(games, (g: Game) => Shown(g, "", "all", parse));
  }

  /** Filtering the filtered view with the same term and month changes nothing. */
  lemma FilterGamesIdempotent(games: seq<Game>, term: string, monthFilter: string, parse: DateParser)
    ensures FilterGames(FilterGames(games, term, monthFilter, parse), term, monthFilter, parse)
      == FilterGames(games, term, monthFilter, parse)
  {
    FilterIdempotent(games, (g: Game) => Shown(g, term, monthFilter, parse));
  }

  /** A search term only ever narrows the unfiltered list. */
  lemma SearchNarrows(games: seq<Game>, term: string, parse: DateParser)
    ensures IsSubsequence(FilterGames(games, term, "all", parse), FilterGames(games, "", "all", parse))
  {
    FilterGamesUnfiltered(games, parse);
  }

  /** Searching "opponent a" with month "4" finds a record against
      "Opponent A" whose date falls in April, whatever its location. */
  lemma SearchFindsOpponentInMonth(g: Game, parse: DateParser)
    requires g.opponent == "Opponent A"
    requires parse(g.date).Some? && parse(g.date).value.local.month == 3
    ensures FilterGames([g], "opponent a", "4", parse) == [g]
  {
    var term := "opponent a";
    assert ToLower(g.opponent) == term;
    assert ToLower(term) == term;
    assert term[..|term|] == term;
    assert NatToString(4) == "4";
    FilterAll([g], (x: Game) => Shown(x, term, "4", parse));
  }

  /* ---------------- per-card display rules ---------------- */

  /** `isPastGame`: the kick-off instant lies strictly before `now`. An
      Invalid Date compares false, so it is never past. */
  function IsPastGame(d: Option<DateTime>, now: int): (r: bool)
    ensures r ==> d.Some?
    ensures d.Some? ==> (r <==> d.value.instant < now)
  {
    d.Some? && d.value.instant < now
  }

  /** Once a game is past it stays past as time goes on. */
  lemma PastStaysPast(d: Option<DateTime>, now: int, later: int)
    requires now <= later && IsPastGame(d, now)
    ensures IsPastGame(d, later)
  {
  }

  /** The list's `formatDate`: month, day and coloured weekday, or the
      placeholder for an Invalid Date. */
  function FormatDate(d: Option<DateTime>): (r: DateLabel)
    ensures d.None? ==> r == DateLabel(NoDateText, Plain)
    ensures d.Some? ==> r.text == MonthDayText(d.value.local)
    ensures d.Some? ==> r.color == WeekdayColor(d.value.local.weekday)
  {
    match d
    case None => DateLabel(NoDateText, Plain)
    case Some(dt) => DateLabel(MonthDayText(dt.local), WeekdayColor(dt.local.weekday))
  }

  /** The memo badge `"{attendees} ({ticketCount}매)"`: the attendees and
      " (" first, "매)" last, and between them the ticket count written in
      decimal with its sign, so a negative count shows as "-" and digits. */
  function MemoText(m: Memo): (r: string)
    ensures |r| >= |m.attendees| + 5
    ensures r[..|m.attendees| + 2] == m.attendees + " ("
    ensures r[|r| - 2..] == "매)"
    ensures var n := r[|m.attendees| + 2..|r| - 2];
      && |n| >= 1
      && (m.ticketCount < 0 <==> n[0] == '-')
      && (m.ticketCount < 0 ==> AllDigits(n[1..]) && DigitsValue(n[1..]) == -m.ticketCount)
      && (m.ticketCount >= 0 ==> AllDigits(n) && DigitsValue(n) == m.ticketCount)
  {
    var count := IntToString(m.ticketCount);
    var r := m.attendees + " (" + count + "매)";
    Enclosed(m.attendees + " (", count, "매)", r);
    r
  }

  /** Where the middle of `front + middle + back` sits. */
  lemma Enclosed(front: string, middle: string, back: string, t: string)
    requires t == front + middle + back
    ensures |t| == |front| + |middle| + |back|
    ensures t[..|front|] == front && t[|t| - |back|..] == back
    ensures t[|front|..|t| - |back|] == middle
  {
  }

  /** What one card of the list shows. */
  datatype Card = Card(
    date: DateLabel,
    time: string,
    memoButtonMarked: bool,
    deleteButton: bool,
    preBookingBadge: Option<CaptionedDate>,
    memoBadge: Option<string>)

  function CardOf(g: Game, parse: DateParser, now: int): (c: Card)
    ensures c.date == FormatDate(parse(g.date)) && c.time == FormatTime(parse(g.date))
    ensures c.deleteButton <==> IsPastGame(parse(g.date), now)
    ensures c.deleteButton ==> parse(g.date).Some?
    ensures c.memoButtonMarked <==> g.memo.Some?
    ensures c.preBookingBadge.Some? <==> TextSet(g.preBookingDate)
    ensures c.preBookingBadge.Some? ==>
      c.preBookingBadge.value == CaptionedDate("선예매: ", FormatDate(parse(g.preBookingDate.value)))
    ensures c.memoBadge.Some? <==> g.memo.Some?
    ensures c.memoBadge.Some? ==> c.memoBadge.value == MemoText(g.memo.value)
  {
    Card(
      FormatDate(parse(g.date)),
      FormatTime(parse(g.date)),
      g.memo.Some?,
      IsPastGame(parse(g.date), now),
      if TextSet(g.preBookingDate) then Some(CaptionedDate("선예매: ", FormatDate(parse(g.preBookingDate.value)))) else None,
      if g.memo.Some? then Some(MemoText(g.memo.value)) else None)
  }

  /* ---------------- persistence ---------------- */

  /** The list's state: the working collection, what the storage slot holds
      (already decoded), and whether the memo dialog is open. */
  datatype ListState = ListState(games: seq<Game>, stored: Option<seq<Game>>, memoDialogOpen: bool)

  /** The mount-time load: a non-empty stored payload that decodes replaces
      the seed; a missing, empty or undecodable one leaves the seed. */
  function LoadGames(seed: seq<Game>, saved: Option<string>, decode: string -> Option<seq<Game>>): (r: seq<Game>)
    ensures !TextSet(saved) ==> r == seed
    ensures TextSet(saved) && decode(saved.value).None? ==> r == seed
    ensures TextSet(saved) && decode(saved.value).Some? ==> r == decode(saved.value).value
  {
    if TextSet(saved) then decode(saved.value).GetOr(seed) else seed
  }

  /** `saveGames`: the updated collection becomes the working collection and
      the whole of it is written to storage. */
  function SaveGames(st: ListState, updated: seq<Game>): (r: ListState)
    ensures r.games == updated && r.stored == Some(updated)
    ensures r.memoDialogOpen == st.memoDialogOpen
  {
    st.(games := updated, stored := Some(updated))
  }

  /** The `onSave` handler given to the memo dialog: save and close. */
  function OnSaveMemo(st: ListState, gameId: string, attendees: string, ticketCount: int): (r: ListState)
    ensures r.games == SaveMemo(st.games, gameId, attendees, ticketCount)
    ensures r.stored == Some(r.games)
    ensures !r.memoDialogOpen
  {
    SaveGames(st, SaveMemo(st.games, gameId, attendees, ticketCount)).(memoDialogOpen := false)
  }

  /** The delete button: nothing happens unless the prompt is confirmed. */
  function OnDeleteClick(st: ListState, gameId: string, confirmed: bool): (r: ListState)
    ensures !confirmed ==> r == st
    ensures confirmed ==> r.games == DeleteGame(st.games, gameId) && r.stored == Some(r.games)
    ensures r.memoDialogOpen == st.memoDialogOpen
  {
    if confirmed then SaveGames(st, DeleteGame(st.games, gameId)) else st
  }

  /** With a codec that round-trips, reloading after any mutation restores
      the working collection that mutation produced. */
  lemma ReloadAfterSave(seed: seq<Game>, st: ListState, encode: seq<Game> -> string, decode: string -> Option<seq<Game>>)
    requires st.stored.Some?
    requires encode(st.stored.value) != ""
    requires decode(encode(st.stored.value)) == st.stored
    ensures LoadGames(seed, Some(encode(st.stored.value)), decode) == st.stored.value
  {
  }
}

=== FILE: seqs.dfy ===
/** Order-preserving sequence combinators: the `Array.prototype.filter`,
    `map` and `some` the schedule components are built from, with the facts
    about them that the component models rely on. */
module Seqs {

  /** `a` can be obtained from `b` by deleting elements: the elements of `a`
      occur in `b` in the same relative order. */
  ghost predicate IsSubsequence<T>(a: seq<T>, b: seq<T>)
    decreases |b|
  {
    if |a| == 0 then true
    else if |b| == 0 then false
    else (a[0] == b[0] && IsSubsequence(a[1..], b[1..])) || IsSubsequence(a, b[1..])
  }

  /** `s[i]` is the first element of `s` that satisfies `p`. */
  ghost predicate IsFirstMatch<T>(s: seq<T>, p: T -> bool, i: int) {
    && 0 <= i < |s|
    && p(s[i])
    && forall j :: 0 <= j < i ==> !p(s[j])
  }

  /** The elements of `s` that satisfy `p`, in their original order: each
      element that satisfies `p` is kept as often as it occurs, every other
      element is dropped. */
  function Filter<T(!new)>(s: seq<T>, p: T -> bool): (r: seq<T>)
    ensures |r| <= |s|
    ensures forall i :: 0 <= i < |r| ==> r[i] in s && p(r[i])
    ensures forall i :: 0 <= i < |s| && p(s[i]) ==> s[i] in r
    ensures forall x :: multiset(r)[x] == if p(x) then multiset(s)[x] else 0
  {
    assert |s| > 0 ==> s == [s[0]] + s[1..];
    if |s| == 0 then []
    else if p(s[0]) then [s[0]] + Filter(s[1..], p)
    else Filter(s[1..], p)
  }

  /** `f` applied to every element of `s`, position by position. */
  function Map<T, U>(s: seq<T>, f: T -> U): (r: seq<U>)
    ensures |r| == |s|
    ensures forall i :: 0 <= i < |s| ==> r[i] == f(s[i])
  {
    if |s| == 0 then [] else [f(s[0])] + Map(s[1..], f)
  }

  /** Whether some element of `s` satisfies `p`, scanning from the front. */
  function Any<T>(s: seq<T>, p: T -> bool): (r: bool)
    ensures r <==> exists i :: 0 <= i < |s| && p(s[i])
  {
    if |s| == 0 then false
    else if p(s[0]) then true
    else
      var rest := Any(s[1..], p);
      assert forall i :: 1 <= i < |s| ==> s[i] == s[1..][i - 1];
      rest
  }

  lemma {:induction false} FilterIsSubsequence<T(!new)>(s: seq<T>, p: T -> bool)
    ensures IsSubsequence(Filter(s, p), s)
  {
    if |s| > 0 {
      var r := Filter(s, p);
      FilterIsSubsequence(s[1..], p);
      if p(s[0]) {
        assert r[0] == s[0] && r[1..] == Filter(s[1..], p);
      } else if |r| > 0 {
        assert r == Filter(s[1..], p);
      }
    }
  }

  /** Keeping the elements that satisfy `p` keeps all of them when all do. */
  lemma {:induction false} FilterAll<T(!new)>(s: seq<T>, p: T -> bool)
    requires forall i :: 0 <= i < |s| ==> p(s[i])
    ensures Filter(s, p) == s
  {
    if |s| > 0 {
      FilterAll(s[1..], p);
      assert [s[0]] + s[1..] == s;
    }
  }

  lemma {:induction false} FilterIdempotent<T(!new)>(s: seq<T>, p: T -> bool)
    ensures Filter(Filter(s, p), p) == Filter(s, p)
  {
    var r := Filter(s, p);
    FilterAll(r, p);
  }

  lemma {:induction false} AnyIffFilterNonEmpty<T(!new)>(s: seq<T>, p: T -> bool)
    ensures Any(s, p) <==> |Filter(s, p)| > 0
  {
    if |s| > 0 {
      AnyIffFilterNonEmpty(s[1..], p);
    }
  }

  /** The head of a non-empty filter result is the first match in `s`. */
  lemma {:induction false} FilterHeadIsFirstMatch<T(!new)>(s: seq<T>, p: T -> bool) returns (i: nat)
    requires |Filter(s, p)| > 0
    ensures IsFirstMatch(s, p, i)
    ensures Filter(s, p)[0] == s[i]
  {
    if p(s[0]) {
      i := 0;
    } else {
      var k := FilterHeadIsFirstMatch(s[1..], p);
      i := k + 1;
      forall j | 0 <= j < i
        ensures !p(s[j])
      {
        if j > 0 {
          assert s[j] == s[1..][j - 1];
        }
      }
    }
  }
}

=== FILE: text.dfy ===
/** String helpers the components use: ASCII lower-casing, substring search
    (`String.prototype.includes`), decimal rendering of integers
    (`Number.prototype.toString`) and `padStart`. */
module Text {

  predicate IsUpper(c: char) {
    'A' <= c <= 'Z'
  }

  /** Lower-cases the ASCII letters A-Z and leaves every other character alone. */
  function LowerChar(c: char): char {
    if IsUpper(c) then (c as int - 'A' as int + 'a' as int) as char else c
  }

  function ToLower(s: string): string {
    seq(|s|, i requires 0 <= i < |s| => LowerChar(s[i]))
  }

  lemma ToLowerIdempotent(s: string)
    ensures ToLower(ToLower(s)) == ToLower(s)
  {
  }

  /** `t` occurs in `s` starting at index `i`. */
  ghost predicate OccursAt(s: string, t: string, i: int) {
    0 <= i && i + |t| <= |s| && s[i..i + |t|] == t
  }

  /** `s.includes(t)`: scans `s` left to right for an occurrence of `t`. */
  function Includes(s: string, t: string): (r: bool)
    ensures r ==> |t| <= |s|
    decreases |s|
  {
    if |t| > |s| then false
    else if s[..|t|] == t then true
    else Includes(s[1..], t)
  }

  /** The scan agrees with the definition of an occurrence. */
  lemma {:induction false} IncludesIff(s: string, t: string)
    ensures Includes(s, t) <==> exists i :: OccursAt(s, t, i)
    decreases |s|
  {
    if |t| > |s| {
    } else if s[..|t|] == t {
      assert OccursAt(s, t, 0);
    } else {
      IncludesIff(s[1..], t);
      if Includes(s[1..], t) {
        var i :| OccursAt(s[1..], t, i);
        assert s[i + 1..i + 1 + |t|] == s[1..][i..i + |t|];
        assert OccursAt(s, t, i + 1);
      } else {
        forall i | OccursAt(s, t, i)
          ensures false
        {
          assert i != 0;
          assert s[1..][i - 1..i - 1 + |t|] == s[i..i + |t|];
          assert OccursAt(s[1..], t, i - 1);
        }
      }
    }
  }

  lemma IncludesEmpty(s: string)
    ensures Includes(s, "")
  {
    assert OccursAt(s, "", 0);
    IncludesIff(s, "");
  }

  predicate IsDigit(c: char) {
    '0' <= c <= '9'
  }

  function DigitChar(d: nat): (c: char)
    requires d < 10
    ensures IsDigit(c)
  {
    (d + '0' as int) as char
  }

  function CharDigit(c: char): nat
    requires IsDigit(c)
  {
    c as int - '0' as int
  }

  predicate AllDigits(s: string) {
    forall i :: 0 <= i < |s| ==> IsDigit(s[i])
  }

  /** The number a string of decimal digits denotes, most significant first. */
  function DigitsValue(s: string): nat
    requires AllDigits(s)
  {
    if |s| == 0 then 0 else DigitsValue(s[..|s| - 1]) * 10 + CharDigit(s[|s| - 1])
  }

  /** `n.toString()` for a non-negative integer `n`. */
  function NatToString(n: nat): (r: string)
    ensures |r| >= 1 && AllDigits(r)
    ensures |r| > 1 ==> r[0] != '0'
    ensures n < 10 <==> |r| == 1
  {
    if n < 10 then [DigitChar(n)] else NatToString(n / 10) + [DigitChar(n % 10)]
  }

  /** Decimal rendering round-trips: reading the digits back gives `n`. */
  lemma {:induction false} NatToStringRoundTrip(n: nat)
    ensures DigitsValue(NatToString(n)) == n
  {
    if n >= 10 {
      var s := NatToString(n);
      NatToStringRoundTrip(n / 10);
      assert s[..|s| - 1] == NatToString(n / 10);
    }
  }

  lemma NatToStringInjective(m: nat, n: nat)
    ensures NatToString(m) == NatToString(n) <==> m == n
  {
    NatToStringRoundTrip(m);
    NatToStringRoundTrip(n);
  }

  /** `i.toString()` for any integer `i`. */
  function IntToString(i: int): (r: string)
    ensures |r| >= 1
    ensures i < 0 <==> r[0] == '-'
    ensures i < 0 ==> |r| >= 2 && AllDigits(r[1..]) && DigitsValue(r[1..]) == -i
    ensures i >= 0 ==> AllDigits(r) && DigitsValue(r) == i
  {
    if i < 0 then
      NatToStringRoundTrip(-i);
      var digits := NatToString(-i);
      assert ("-" + digits)[1..] == digits;
      "-" + digits
    else
      NatToStringRoundTrip(i);
      NatToString(i)
  }

  /** `s.padStart(n, c)` for a one-character pad string: copies of `c` in
      front of `s` up to length `n`; `s` itself when it is already that long. */
  function PadStart(s: string, n: nat, c: char): (r: string)
    ensures |r| == if |s| >= n then |s| else n
    ensures r[|r| - |s|..] == s
    ensures forall i :: 0 <= i < |r| - |s| ==> r[i] == c
  {
    if |s| >= n then s else seq(n - |s|, _ => c) + s
  }

  /** Leading zeros do not change the value of a digit string. */
  lemma {:induction false} LeadingZeroValue(s: string)
    requires AllDigits(s)
    ensures AllDigits("0" + s) && DigitsValue("0" + s) == DigitsValue(s)
    decreases |s|
  {
    if |s| > 0 {
      var t := "0" + s;
      assert t[..|t| - 1] == "0" + s[..|s| - 1];
      LeadingZeroValue(s[..|s| - 1]);
    }
  }
}

=== FILE: types.dfy ===
/** The schedule's record types (lib/types.ts) and the parsed-date values the
    components read off a JavaScript `Date`. */
module Types {
  import opened Wrappers

  /** A user's attendance note. `ticketCount` is whatever number the memo
      dialog produced; nothing keeps it positive. */
  datatype Memo = Memo(attendees: string, ticketCount: int)

  /** One schedule entry. Every optional property of the TypeScript interface
      is an `Option`. */
  datatype Game = Game(
    id: string,
    date: string,
    opponent: string,
    location: string,
    isAvailable: bool,
    isSpecialGame: Option<bool>,
    preBookingDate: Option<string>,
    isPreBooking: Option<bool>,
    notes: Option<string>,
    memo: Option<Memo>)

  /** JavaScript truthiness of an optional flag: absent and `false` are falsy. */
  predicate FlagSet(flag: Option<bool>) {
    flag == Some(true)
  }

  /** JavaScript truthiness of an optional string: absent and `""` are falsy. */
  predicate TextSet(text: Option<string>) {
    text.Some? && text.value != ""
  }

  /** `getMonth()`: January is 0. */
  type Month = m: nat | m < 12
  /** `getDate()`. */
  type DayOfMonth = d: nat | 1 <= d <= 31 witness 1
  /** `getDay()`: Sunday is 0, Saturday is 6. */
  type Weekday = w: nat | w < 7
  type Hour = h: nat | h < 24
  type Minute = m: nat | m < 60

  /** The local-time fields of a valid `Date`. */
  datatype DateParts = DateParts(
    year: int,
    month: Month,
    day: DayOfMonth,
    weekday: Weekday,
    hour: Hour,
    minute: Minute)

  /** A valid `Date`: its instant in milliseconds since the epoch and its
      local-time fields. An Invalid Date (NaN time value) is `None` wherever a
      `Option<DateTime>` appears. */
  datatype DateTime = DateTime(instant: int, local: DateParts)

  /** How a date string becomes a `Date`; the JavaScript parser and the
      time zone are outside the model. */
  type DateParser = string -> Option<DateTime>

  /** No two records of the collection share an id. */
  ghost predicate UniqueIds(games: seq<Game>) {
    forall i, j :: 0 <= i < j < |games| ==> games[i].id != games[j].id
  }

  /** Some record of the collection has id `id`. */
  predicate HasId(games: seq<Game>, id: string) {
    exists i :: 0 <= i < |games| && games[i].id == id
  }
}

=== FILE: wrappers.dfy ===
/** The optional-value datatype used for the schedule's optional fields, for
    a date that failed to parse and for a number that failed to parse. */
module Wrappers {

  datatype Option<+T> = None | Some(value: T) {

    /** The encapsulated value, or `default` when there is none. */
    function GetOr(default: T): T {
      match this
      case Some(v) => v
      case None => default
    }
  }
}
